=== FILE: README.md ===
# DictToObject and validators, in Dafny

This project models two parts of a small Python utility collection:

- `dict_to_object.py`: class `DictToObject`. It turns a nested dictionary into an object whose
  attributes mirror the dictionary's keys, and turns it back with `to_dict`.
- `tools/validators.py`: `validate_integer` and `validate_email`.

## dict_to_object.dfy (module `DictToObjectModel`)

A Python value, as the converter sees it, is a `Value`. It is one of four things:

- a scalar (`Atom`);
- a list (`List`);
- a plain dictionary with string keys (`Dict`);
- a `DictToObject` (`Node`), given by its attribute dictionary.

`Convert` is `_convert`. `PlainValue` and `NodeToDict` are `to_dict`.

The top-level object is the class `DictToObject`. Its field `fields` is the object's `__dict__`:

- `SetAttr` is `__setattr__`, `GetAttr` is `__getattr__`;
- `New` is the constructor together with its `ValueError`;
- `Update` is `update`, and `ToDict` is the `to_dict` loop.

The invariant `Valid()` says that every stored attribute holds a converted value, meaning one with no
plain dictionary inside. It is what `__setattr__` keeps true.

Main results:

- Converting twice stores what converting once stores. Every value stored by `__init__` or `update` is
  converted twice: once explicitly in their loops, once more in `__setattr__`. A direct assignment
  `obj.x = v` converts once.
- `update` replaces top-level keys wholesale. The documentation example of `update` loses `age` and
  `address.city`.
- `to_dict` undoes the conversion of plain data exactly when no dictionary sits inside a list that is
  itself inside a list. `to_dict` unwraps only the child objects that are directly in a list, so
  `{"a": [[{"b": 1}]]}` comes back holding a `DictToObject`.

## validators.dfy (module `Validators`)

- The argument of a validator is `Arg`: `None`, an `int` or a `str`.
- `ParseInt` models `int()` on a string. It strips surrounding white space and takes an optional sign,
  then digits, with single underscores allowed between digits. Leading zeros are allowed.
- `IntToStr` models `str()` on an `int`.
- `ValidateInteger` follows `validate_integer` branch by branch.
  `ValidateIntegerString` proves that a string passes exactly when it is the canonical decimal form
  of an integer within the bounds.
- `ValidateEmail` recognises the regular expression by scanning the string.
  `ValidateEmailIff` proves that it accepts exactly the strings that `EmailRegex` describes.
  `EmailRegex` is a declarative description of the pattern: its look-aheads, its character classes,
  its `+` and `{2,}` repetitions, and `$`.
- `re.match` lets `$` match just before one final newline, so an address followed by `"\n"` is
  accepted. The model includes this.

The look-ahead `(?!.*\.$)` only forbids a dot at the very end of the string. It does not forbid a dot
just before the `@`. The main part of the pattern already ends in a letter, so this look-ahead never
changes the outcome (`FinalDotLookaheadRedundant`). An address such as `john.@example.com` is
accepted (`DotBeforeAtAccepted`): a dot just before the `@` is allowed.

## Model

| member | source | states |
|---|---|---|
| DictToObjectModel.ValidateDict | dict_to_object.py:43-46 | passes exactly for a dictionary; otherwise a ValueError naming the received type |
| DictToObjectModel.Convert | dict_to_object.py:48-54 | a dictionary becomes a child object with the same keys, a list stays a list of the same length, everything else is returned unchanged; converting a well-formed value leaves no plain dictionary inside |
| DictToObjectModel.ConvertIdempotent | dict_to_object.py:48-54 | a value with no dictionary inside is its own conversion |
| DictToObjectModel.DoubleConvert | dict_to_object.py:32-36 | for every value, the explicit `_convert` followed by the `_convert` in `__setattr__` stores the same as one conversion |
| DictToObjectModel.PlainIsWellFormed | dict_to_object.py:28-33 | plain data, such as parsed JSON, is always a valid argument for the constructor and `update` |
| DictToObjectModel.Attr | dict_to_object.py:38-41 | an attribute that was set reads as its stored value, any other as None |
| DictToObjectModel.NodeToDict | dict_to_object.py:77-88 | `to_dict` produces a dictionary with exactly the object's attribute names as keys |
| DictToObjectModel.PlainValue | dict_to_object.py:80-87 | `to_dict`'s treatment of one attribute: a child object becomes a dictionary with the same keys, and a list stays a list of the same length |
| DictToObjectModel.RoundTrip | dict_to_object.py:77-88 | for plain data with no dictionary two lists deep, `to_dict` of the conversion gives the original back |
| DictToObjectModel.DictRoundTrip | dict_to_object.py:28-33 | `DictToObject(d).to_dict() == d` for such a dictionary `d` |
| DictToObjectModel.RoundTripBreaks | dict_to_object.py:83-85 | plain data with a dictionary two lists deep comes back from `to_dict` holding a DictToObject |
| DictToObjectModel.RoundTripIff | dict_to_object.py:48-88 | for plain data, `to_dict` undoes `_convert` if and only if no dictionary is nested two lists deep |
| DictToObjectModel.MergeThenToDict | dict_to_object.py:73-88 | after `update(d)`, `to_dict` holds `d`'s entries for `d`'s keys and the former plain values for every other key |
| DictToObjectModel.UserDataAccess | dict_to_object.py:8-25 | the documentation example: `obj.user.name` is "John Doe", `obj.user.address.city` is "Springfield", `obj.user.address.zip_code` is None |
| DictToObjectModel.UserDataUpdateIsShallow | dict_to_object.py:67-71 | the `update` example sets `user.name` and `user.address.zip_code`; because the whole `user` is replaced, `user.age` and `user.address.city` then read as None |
| DictToObjectModel.ListOfDictsConverted | dict_to_object.py:51-52 | dictionaries inside a list become child objects; other elements stay as they are, in order |
| DictToObjectModel.NestedListRoundTripFails | dict_to_object.py:83-85 | `{"a": [[{"b": 1}]]}` comes back from `to_dict` with the inner dictionary still a DictToObject |
| DictToObjectModel.DictToObject.Empty | dict_to_object.py:28 | the object before `__init__` assigns anything: no attributes, and `Valid()` |
| DictToObjectModel.DictToObject.New | dict_to_object.py:28-33 | None builds an object with no attributes; a dictionary builds one whose attributes are its converted entries; anything else fails with a ValueError naming its type; the object satisfies `Valid()` |
| DictToObjectModel.DictToObject.SetAttr | dict_to_object.py:35-36 | the attribute is set to the converted value, every other attribute is unchanged, and `Valid()` is kept |
| DictToObjectModel.DictToObject.GetAttr | dict_to_object.py:38-41 | the stored attribute, or None for an attribute never set |
| DictToObjectModel.DictToObject.Assign | dict_to_object.py:32-33 | after the loop, the given keys hold their converted values and every other attribute is kept |
| DictToObjectModel.DictToObject.Update | dict_to_object.py:56-75 | a non-dictionary fails with a ValueError and changes nothing; a dictionary overwrites its keys at the top level and keeps every other attribute |
| DictToObjectModel.DictToObject.ToDict | dict_to_object.py:77-88 | the loop builds exactly `to_dict` of the object, attribute by attribute |
| Validators.ParseIntToStr | tools/validators.py:80-86 | `int(str(n)) == n` for every integer |
| Validators.CanonicalParses | tools/validators.py:80-86 | a canonical decimal string parses, and `str()` of its value is the string itself |
| Validators.IntToStr | tools/validators.py:86 | `str(n)` is canonical (an optional minus sign, no leading zero, no "-0") and starts with "-" exactly when n is negative |
| Validators.ParseInt | tools/validators.py:80 | `int(s)`: a bare run of digits reads as its value, and a minus sign before one reads as the negated value |
| Validators.ToInt | tools/validators.py:80 | `int(input_value)`: an int argument is read as itself, so it always prints back as `str(input_value)`; a string argument is read by `ParseInt` |
| Validators.ToStr | tools/validators.py:86 | `str(input_value)`: for an int argument, canonical text that `int()` reads back as that int; the string itself for a string argument |
| Validators.ParsePlusRun | tools/validators.py:80 | `int()` reads a plus sign followed by a digit run as the run's value |
| Validators.ParseSkipsLeadingSpace | tools/validators.py:80 | `int()` reads a string with one of its six white-space characters in front the same as the string without it |
| Validators.SeparatorNotSkipped | tools/validators.py:80 | `int("\x1c7")` raises ValueError: the separator \x1c is not skipped as white space (nor are \x1d-\x1f, which `IsSpace` also leaves out) |
| Validators.ReadsLeadingZeros | tools/validators.py:80 | `int("007")` is 7 |
| Validators.ReadsSignedForms | tools/validators.py:80 | `int("+7")` is 7 and `int("-0")` is 0 |
| Validators.ReadsSpacedOrDecorated | tools/validators.py:80 | `int(" 7")` is 7 and `int("1_0")` is 10; `int("1.0")` raises ValueError |
| Validators.ValidateInteger | tools/validators.py:63-88 | None passes; an int passes exactly when it is within the bounds; a string `int()` cannot read fails |
| Validators.ValidateIntegerString | tools/validators.py:79-88 | a string passes exactly when it is the canonical decimal form of an integer within the bounds |
| Validators.ValidateIntegerAcceptsStr | tools/validators.py:80-86 | `str(n)` passes for every `n` within the bounds |
| Validators.NonCanonicalIntegersRejected | tools/validators.py:85-86 | "007", "+7" and "-0" fail, although `int()` reads them (`ReadsLeadingZeros`, `ReadsSignedForms`) |
| Validators.SpacedOrDecoratedIntegersRejected | tools/validators.py:79-88 | " 7" and "1_0" fail although `int()` reads them (`ReadsSpacedOrDecorated`); "1.0" fails |
| Validators.CanonicalIntegerAccepted | tools/validators.py:79-86 | "7" passes |
| Validators.BoundsApplyToStrings | tools/validators.py:81-84 | "-12" passes the bounds -20 to 0; "7" fails a lower bound of 8 |
| Validators.ValidateEmail | tools/validators.py:113-114 | a value that is not a string is never a valid address |
| Validators.MatchesEmailPattern | tools/validators.py:115 | `re.match` of the pattern: every match is non-empty and ends in a letter, or in one final newline |
| Validators.ValidateEmailIff | tools/validators.py:111-117 | `validate_email(s)` is true if and only if the pattern matches `s` |
| Validators.MatchesBodyIff | tools/validators.py:111 | the recogniser accepts exactly the strings the pattern, without a final newline, describes |
| Validators.NoDoubleDotIff | tools/validators.py:111 | the scan for ".." fails exactly when two dots stand next to each other, as `(?!.*\.\.)` demands |
| Validators.ScanSound | tools/validators.py:111 | what the scan accepts has the shape local part, "@", domain head, ".", two or more letters |
| Validators.ScanComplete | tools/validators.py:111 | every string of that shape is accepted by the scan |
| Validators.FinalDotLookaheadRedundant | tools/validators.py:111 | every string of the main part ends in a letter, so `(?!.*\.$)` never decides the outcome |
| Validators.DoubleDotRejected | tools/validators.py:111 | a string with ".." anywhere is never accepted |
| Validators.AcceptedHasOneAt | tools/validators.py:111 | an accepted address holds exactly one "@" |
| Validators.AddressAccepted | tools/validators.py:111 | local part "@" head "." letters is accepted when the parts use the allowed characters, hold no "..", the head does not end in a dot and the last part has two or more letters |
| Validators.ExampleAddressAccepted | tools/validators.py:102-103 | "example@example.com" is valid |
| Validators.MissingAtRejected | tools/validators.py:104-105 | "invalid-email" is not valid |
| Validators.DottedLocalPartAccepted | tools/validators.py:106-107 | "another.example@domain.co" is valid |
| Validators.ExampleDoubleDotRejected | tools/validators.py:108-109 | "bad..email@domain.com" is not valid |
| Validators.DotBeforeAtAccepted | tools/validators.py:111 | "john.@example.com" is valid: a dot is refused only at the very end of the string |
| Validators.FinalNewlineAccepted | tools/validators.py:115 | "john@example.com\n" is valid, since `$` matches just before one final newline |

## Left out

- Python's attribute machinery is not modelled. This covers special names such as `__class__`, keys that
  shadow methods such as `update` and `to_dict`, and the fact that `__getattr__` only runs after normal
  lookup fails. Attribute names are modelled as strings; a non-string key, on which `setattr` raises
  `TypeError`, is not modelled.
- Aliasing: `_convert` returns an existing DictToObject as the same object, so two parents may share a
  child. `to_dict` returns inner lists and non-object list elements that are the very objects the
  DictToObject holds. The model holds every value by value, so neither kind of sharing is modelled.
- Recursion depth: `_convert` and `__init__` call each other (dict_to_object.py lines 33 and 50), so a
  dictionary that contains itself, or very deep nesting, makes Python raise `RecursionError`. Model
  values are finite and acyclic, so `Convert` always succeeds; cycles and the recursion limit are not
  modelled.
- Insertion order of dictionaries is not modelled. Attributes are a `map`, and the loops take keys in
  any order. The resulting dictionaries are the same whatever the order.
- DictToObjectModel.DictToObject.New: the ValueError carries the bare type name ("int"), not Python's
  `<class 'int'>` text.
- DictToObjectModel.DictToObject.New, DictToObjectModel.DictToObject.Update and
  DictToObjectModel.DictToObject.SetAttr require `WellFormed` input: every DictToObject already inside
  the argument stores converted values only. Attribute assignment keeps this true. The model does not
  capture a list that is read from an attribute and then changed in place, for example
  `obj = DictToObject({"a": []}); obj.a.append({"b": 1})`. That change bypasses `__setattr__` and leaves a
  plain dictionary inside `obj`, which is then neither `Valid()` nor a `WellFormed` argument. Plain data
  such as parsed JSON is always well formed (`PlainIsWellFormed`).
- Dictionaries with non-string keys are not modelled. Scalar types beyond None, bool, int and str are
  not modelled individually: each is an opaque `Other` value that carries only its type name (such as
  "float" or "tuple"). The ValueError names that type. Tuples and other sequences are scalars to
  `_convert`, as they are in Python.
- Validators.ValidateInteger: bool and float arguments and bounds are not modelled. Nor is the
  `TypeError` raised for bounds that cannot be compared.
- Validators.ValidateInteger: the 4300-digit limit on integer-string conversion in current Python
  versions is not modelled. The limit applies both to `int()` on a string argument and to `str()` on
  an int argument. Python raises `ValueError` there, which line 87 turns into False, so
  `validate_integer(10**5000)` is False in Python but true in the model.
- Validators.ParseInt: in an ASCII string, `int()` skips only space, tab, line feed, vertical tab,
  form feed and carriage return around the number, and the model skips exactly these. `int()` also
  reads non-ASCII digits and non-ASCII white space; the model does not. The result of
  `validate_integer` is the same either way, since such a string never equals `str()` of a number.
- `validate_number`, which uses floating point, and `is_valid_date`, which uses `datetime.strptime`,
  are not part of this model. `tools/utils.py` (`add_days`, date arithmetic) is not part of this model
  either.

=== FILE: dict_to_object.dfy ===
/**
 * The dict-to-object converter of dict_to_object.py (class DictToObject).
 *
 * A DictToObject is an object whose attributes mirror the keys of a nested
 * dictionary: dictionaries become child objects, lists are converted element
 * by element, everything else is stored as it is, and reading an attribute
 * that was never set yields None.  The object's attribute dictionary
 * (`__dict__`) is the field `fields` of class DictToObject below.  Child
 * objects are held by value, as `Node` values: two parents sharing one child,
 * and a list read from an attribute and then changed in place, are outside
 * this model.
 */
module DictToObjectModel {

  /** Python values the converter never looks into. */
  datatype Scalar = NoneValue | Bool(b: bool) | Int(i: int) | Str(s: string) | Other(typeName: string)

  /**
   * A Python value as the converter sees it: a scalar, a list, a plain
   * dictionary with string keys, or a DictToObject (given by its attributes).
   */
  datatype Value =
    | Atom(scalar: Scalar)
    | List(items: seq<Value>)
    | Dict(entries: map<string, Value>)
    | Node(fields: map<string, Value>)

  const None: Value := Atom(NoneValue)

  /** The ValueError raised by `_validate_dict`, naming the type it received. */
  datatype Error = ValueError(receivedType: string)

  datatype Outcome = Pass | Fail(error: Error)

  datatype Result<T> = Ok(value: T) | Err(error: Error)

  /** The name Python prints for `type(v)`. */
  function TypeName(v: Value): string
  {
    match v
    case Atom(NoneValue) => "NoneType"
    case Atom(Bool(_)) => "bool"
    case Atom(Int(_)) => "int"
    case Atom(Str(_)) => "str"
    case Atom(Other(name)) => name
    case List(_) => "list"
    case Dict(_) => "dict"
    case Node(_) => "DictToObject"
  }

  /** No DictToObject anywhere inside: plain data such as parsed JSON. */
  predicate Plain(v: Value)
  {
    match v
    case Atom(_) => true
    case List(items) => forall i :: 0 <= i < |items| ==> Plain(items[i])
    case Dict(entries) => forall k :: k in entries ==> Plain(entries[k])
    case Node(_) => false
  }

  /**
   * No plain dictionary anywhere inside: the shape of every value a
   * DictToObject stores in an attribute.
   */
  predicate Converted(v: Value)
  {
    match v
    case Atom(_) => true
    case List(items) => forall i :: 0 <= i < |items| ==> Converted(items[i])
    case Dict(_) => false
    case Node(fields) => forall k :: k in fields ==> Converted(fields[k])
  }

  /**
   * Every DictToObject inside v stores converted values only: what attribute
   * assignment, which always passes through `_convert`, leaves behind.  A
   * list read from an attribute and changed in place (`obj.a.append({})`)
   * can break this, since that change bypasses `__setattr__`.
   */
  predicate WellFormed(v: Value)
  {
    match v
    case Atom(_) => true
    case List(items) => forall i :: 0 <= i < |items| ==> WellFormed(items[i])
    case Dict(entries) => forall k :: k in entries ==> WellFormed(entries[k])
    case Node(fields) => forall k :: k in fields ==> Converted(fields[k])
  }

  /** `_validate_dict`: only a dictionary passes. */
  function ValidateDict(v: Value): (r: Outcome)
    ensures r.Pass? <==> v.Dict?
    ensures r.Fail? ==> r.error == ValueError(TypeName(v))
  {
    if v.Dict? then Pass else Fail(ValueError(TypeName(v)))
  }

  /**
   * `_convert`: a dictionary becomes a child DictToObject, a list becomes the
   * list of its converted elements, anything else passes through.
   */
  function Convert(v: Value): (r: Value)
    ensures WellFormed(v) ==> Converted(r)
    ensures v.Dict? ==> r.Node? && r.fields.Keys == v.entries.Keys
    ensures v.List? <==> r.List?
    ensures v.List? ==> |r.items| == |v.items|
    ensures v.Atom? || v.Node? ==> r == v
  {
    match v
    case Atom(_) => v
    case List(items) => List(seq(|items|, i requires 0 <= i < |items| => Convert(items[i])))
    case Dict(entries) => Node(map k | k in entries :: Convert(entries[k]))
    case Node(_) => v
  }

  /** Converting a converted value changes nothing. */
  lemma {:induction false} ConvertIdempotent(v: Value)
    requires Converted(v)
    ensures Convert(v) == v
  {
    match v
    case Atom(_) =>
    case List(items) =>
      forall i | 0 <= i < |items|
        ensures Convert(items[i]) == items[i]
      {
        ConvertIdempotent(items[i]);
      }
      assert Convert(v).items == items;
    case Node(_) =>
  }

  /**
   * The double conversion of `__init__` and `update` (explicit `_convert`,
   * then `_convert` again in `__setattr__`) stores what a single one would.
   */
  lemma {:induction false} DoubleConvert(v: Value)
    ensures Convert(Convert(v)) == Convert(v)
  {
    match v
    case Atom(_) =>
    case Dict(_) =>
    case Node(_) =>
    case List(items) =>
      forall i | 0 <= i < |items|
        ensures Convert(Convert(items[i])) == Convert(items[i])
      {
        DoubleConvert(items[i]);
      }
      assert Convert(Convert(v)).items == Convert(v).items;
  }

  lemma {:induction false} ConvertedIsWellFormed(v: Value)
    requires Converted(v)
    ensures WellFormed(v)
  {
    match v
    case Atom(_) =>
    case List(items) =>
      forall i | 0 <= i < |items|
        ensures WellFormed(items[i])
      {
        ConvertedIsWellFormed(items[i]);
      }
    case Node(_) =>
  }

  /** Plain data, such as parsed JSON, is a valid argument for `New` and `Update`. */
  lemma {:induction false} PlainIsWellFormed(v: Value)
    requires Plain(v)
    ensures WellFormed(v)
  {
    match v
    case Atom(_) =>
    case List(items) =>
      forall i | 0 <= i < |items|
        ensures WellFormed(items[i])
      {
        PlainIsWellFormed(items[i]);
      }
    case Dict(entries) =>
      forall k | k in entries
        ensures WellFormed(entries[k])
      {
        PlainIsWellFormed(entries[k]);
      }
  }

  /** `__getattr__`: the stored attribute, or None for a key never set. */
  function Attr(fields: map<string, Value>, key: string): (r: Value)
    ensures key in fields ==> r == fields[key]
    ensures key !in fields ==> r == None
  {
    if key in fields then fields[key] else None
  }

  /** `to_dict` of a child object: each attribute turned back into plain data. */
  function NodeToDict(node: Value): (r: map<string, Value>)
    requires node.Node?
    ensures r.Keys == node.fields.Keys
    decreases node, 0
  {
    map k | k in node.fields :: PlainValue(node.fields[k])
  }

  /**
   * The treatment of one attribute by `to_dict`: a child object is turned
   * back into a dictionary, a list has its child-object elements (and only
   * those directly inside it) turned back, anything else passes through.
   */
  function PlainValue(v: Value): (r: Value)
    ensures v.Node? ==> r.Dict? && r.entries.Keys == v.fields.Keys
    ensures v.List? ==> r.List? && |r.items| == |v.items|
    decreases v, 1
  {
    match v
    case Node(_) => Dict(NodeToDict(v))
    case List(items) =>
      List(seq(|items|, i requires 0 <= i < |items| =>
        if items[i].Node? then Dict(NodeToDict(items[i])) else items[i]))
    case _ => v
  }

  /**
   * No dictionary sits inside a list that is itself inside a list: the inputs
   * for which `to_dict` undoes `_convert`.  A dictionary directly in a list
   * starts afresh.
   */
  predicate NoDictInNestedList(v: Value)
  {
    match v
    case Atom(_) => true
    case List(items) =>
      forall i :: 0 <= i < |items| ==>
        if items[i].List? then Converted(items[i]) else NoDictInNestedList(items[i])
    case Dict(entries) => forall k :: k in entries ==> NoDictInNestedList(entries[k])
    case Node(fields) => forall k :: k in fields ==> NoDictInNestedList(fields[k])
  }

  /** A dictionary-free plain value is its own conversion and its own plain form. */
  lemma {:induction false} PlainConvertedFixed(v: Value)
    requires Plain(v) && Converted(v)
    ensures Convert(v) == v && PlainValue(v) == v
  {
    ConvertIdempotent(v);
    match v
    case Atom(_) =>
    case List(items) =>
      assert PlainValue(v).items == items;
  }

  /** Round trip: `to_dict` recovers the input of `_convert` when no dictionary is nested two lists deep. */
  lemma {:induction false} RoundTrip(v: Value)
    requires Plain(v) && NoDictInNestedList(v)
    ensures PlainValue(Convert(v)) == v
    decreases v, 2
  {
    match v
    case Atom(_) =>
    case Dict(entries) =>
      DictRoundTrip(entries);
    case List(items) =>
      var c := Convert(v);
      forall i | 0 <= i < |items|
        ensures PlainValue(c).items[i] == items[i]
      {
        ListItemRoundTrip(v, i);
      }
      assert PlainValue(c).items == items;
  }

  /** One element of a list: `to_dict` unwraps a child object found directly in the list. */
  lemma {:induction false} ListItemRoundTrip(v: Value, i: nat)
    requires v.List? && i < |v.items|
    requires Plain(v) && NoDictInNestedList(v)
    ensures PlainValue(Convert(v)).items[i] == v.items[i]
    decreases v, 1
  {
    var x := v.items[i];
    assert Convert(v).items[i] == Convert(x);
    match x
    case Atom(_) =>
    case List(_) =>
      PlainConvertedFixed(x);
    case Dict(entries) =>
      DictRoundTrip(entries);
  }

  /** Round trip at the level of a whole object: `to_dict(DictToObject(d)) == d`. */
  lemma {:induction false} DictRoundTrip(entries: map<string, Value>)
    requires forall k :: k in entries ==> Plain(entries[k]) && NoDictInNestedList(entries[k])
    ensures NodeToDict(Convert(Dict(entries))) == entries
    decreases Dict(entries), 0
  {
    var c := Convert(Dict(entries));
    forall k | k in entries
      ensures NodeToDict(c)[k] == entries[k]
    {
      RoundTrip(entries[k]);
    }
  }

  /** Converting plain data that holds a dictionary yields a value holding a child object. */
  lemma {:induction false} ConvertIntroducesNode(v: Value)
    requires Plain(v) && !Converted(v)
    ensures !Plain(Convert(v))
  {
    match v
    case Dict(_) =>
    case List(items) =>
      var i :| 0 <= i < |items| && !Converted(items[i]);
      ConvertIntroducesNode(items[i]);
      assert Convert(v).items[i] == Convert(items[i]);
  }

  /** Plain data with a dictionary two lists deep does not survive the round trip. */
  lemma {:induction false} RoundTripBreaks(v: Value)
    requires Plain(v) && !NoDictInNestedList(v)
    ensures !Plain(PlainValue(Convert(v)))
  {
    match v
    case Dict(entries) =>
      var k :| k in entries && !NoDictInNestedList(entries[k]);
      RoundTripBreaks(entries[k]);
      assert NodeToDict(Convert(v))[k] == PlainValue(Convert(entries[k]));
    case List(items) =>
      var i :| 0 <= i < |items| &&
        !(if items[i].List? then Converted(items[i]) else NoDictInNestedList(items[i]));
      var x := items[i];
      assert Convert(v).items[i] == Convert(x);
      if x.List? {
        ConvertIntroducesNode(x);
        assert PlainValue(Convert(v)).items[i] == Convert(x);
      } else {
        RoundTripBreaks(x);
        assert PlainValue(Convert(v)).items[i] == PlainValue(Convert(x));
      }
  }

  /** For plain data, `to_dict` undoes `_convert` exactly when no dictionary is nested two lists deep. */
  lemma RoundTripIff(v: Value)
    requires Plain(v)
    ensures PlainValue(Convert(v)) == v <==> NoDictInNestedList(v)
  {
    if NoDictInNestedList(v) {
      RoundTrip(v);
    } else {
      RoundTripBreaks(v);
    }
  }

  /**
   * `update` followed by `to_dict`: the keys of the update are replaced by
   * the update's values, every other key keeps what it had.
   */
  lemma MergeThenToDict(fields: map<string, Value>, entries: map<string, Value>)
    requires forall k :: k in entries ==> Plain(entries[k]) && NoDictInNestedList(entries[k])
    ensures NodeToDict(Node(fields + Convert(Dict(entries)).fields))
         == NodeToDict(Node(fields)) + entries
  {
    DictRoundTrip(entries);
  }

  function Text(text: string): Value { Atom(Str(text)) }

  /** The nested dictionary of the class's documentation example. */
  function UserData(): Value
  {
    Dict(map["user" := Dict(map[
      "name" := Text("John Doe"),
      "age" := Atom(Int(30)),
      "address" := Dict(map["city" := Text("Springfield"), "country" := Text("USA")])])])
  }

  /**
   * The documentation example: `obj.user.name` is "John Doe",
   * `obj.user.address.city` is "Springfield" and the never-set
   * `obj.user.address.zip_code` reads as None.
   */
  lemma UserDataAccess()
    ensures var obj := Convert(UserData()).fields;
            var user := Attr(obj, "user");
            && user.Node?
            && Attr(user.fields, "name") == Text("John Doe")
            && var address := Attr(user.fields, "address");
               && address.Node?
               && Attr(address.fields, "city") == Text("Springfield")
               && Attr(address.fields, "zip_code") == None
  {
  }

  /**
   * The documentation example of `update`: the new "user" replaces the old
   * one wholesale, so "age" and "address.city" are gone, while the new
   * "name" and "address.zip_code" are there.
   */
  lemma UserDataUpdateIsShallow()
    ensures var patch := Dict(map["user" := Dict(map[
              "name" := Text("Jane Doe"),
              "address" := Dict(map["zip_code" := Text("12345")])])]);
            var obj := Convert(UserData()).fields + Convert(patch).fields;
            var user := Attr(obj, "user");
            && user.Node?
            && Attr(user.fields, "name") == Text("Jane Doe")
            && Attr(user.fields, "age") == None
            && var address := Attr(user.fields, "address");
               && address.Node?
               && Attr(address.fields, "zip_code") == Text("12345")
               && Attr(address.fields, "city") == None
  {
  }

  /**
   * Dictionaries directly inside a list become child objects; other
   * elements stay as they are, in the same order.
   */
  lemma ListOfDictsConverted()
    ensures var obj := Convert(Dict(map["a" := List([
              Dict(map["b" := Atom(Int(1))]), Atom(Int(2)), Dict(map["c" := Atom(Int(3))])])])).fields;
            var a := Attr(obj, "a");
            && a.List? && |a.items| == 3
            && a.items[0].Node? && Attr(a.items[0].fields, "b") == Atom(Int(1))
            && a.items[1] == Atom(Int(2))
            && a.items[2].Node? && Attr(a.items[2].fields, "c") == Atom(Int(3))
  {
  }

  /**
   * `{"a": [[{"b": 1}]]}` does not survive the round trip: the inner
   * dictionary comes back as a child object.
   */
  lemma NestedListRoundTripFails()
    ensures var d := map["a" := List([List([Dict(map["b" := Atom(Int(1))])])])];
            var back := NodeToDict(Convert(Dict(d)));
            && back != d
            && back["a"] == List([List([Node(map["b" := Atom(Int(1))])])])
  {
    var d := map["a" := List([List([Dict(map["b" := Atom(Int(1))])])])];
    var inner := Convert(List([Dict(map["b" := Atom(Int(1))])]));
    assert inner.items[0] == Node(map["b" := Atom(Int(1))]);
    assert inner == List([Node(map["b" := Atom(Int(1))])]);
    assert Convert(d["a"]) == List([inner]);
    assert PlainValue(List([inner])) == List([inner]);
  }

  /** `base` with the keys in `done` set to the conversions of their entries. */
  function ConvertedEntries(base: map<string, Value>, entries: map<string, Value>, done: set<string>): map<string, Value>
    requires done <= entries.Keys
  {
    base + map k | k in done :: Convert(entries[k])
  }

  /** One turn of the assignment loop adds one converted entry. */
  lemma AssignStep(base: map<string, Value>, entries: map<string, Value>, done: set<string>, key: string)
    requires done <= entries.Keys && key in entries
    ensures ConvertedEntries(base, entries, done)[key := Convert(entries[key])]
         == ConvertedEntries(base, entries, done + {key})
  {
  }

  /**
   * A DictToObject: `fields` is its attribute dictionary.  Valid() is what
   * `__setattr__` keeps true: every attribute holds a converted value.
   */
  class DictToObject {
    var fields: map<string, Value>

    ghost predicate Valid()
      reads this
    {
      forall k :: k in fields ==> Converted(fields[k])
    }

    /** The object before `__init__` assigns any attribute. */
    constructor Empty()
      ensures Valid() && fields == map[]
    {
      fields := map[];
    }

    /** `DictToObject(dictionary)`: None stands for the empty dictionary; any other non-dictionary raises. */
    static method New(dictionary: Value) returns (r: Result<DictToObject>)
      requires WellFormed(dictionary)
      ensures r.Err? <==> !dictionary.Dict? && dictionary != None
      ensures r.Err? ==> r.error == ValueError(TypeName(dictionary))
      ensures r.Ok? ==> fresh(r.value) && r.value.Valid()
      ensures r.Ok? && dictionary.Dict? ==> r.value.fields == Convert(dictionary).fields
      ensures r.Ok? && dictionary == None ==> r.value.fields == map[]
    {
      var d := if dictionary == None then Dict(map[]) else dictionary;
      var check := ValidateDict(d);
      if check.Fail? {
        return Err(check.error);
      }
      var node := new DictToObject.Empty();
      node.Assign(d.entries);
      return Ok(node);
    }

    /** `__setattr__`: every assignment stores the converted value. */
    method SetAttr(key: string, value: Value)
      requires Valid() && WellFormed(value)
      modifies this
      ensures Valid()
      ensures fields == old(fields)[key := Convert(value)]
    {
      fields := fields[key := Convert(value)];
    }

    /** `__getattr__`: soft access, None for an attribute never set. */
    function GetAttr(key: string): (r: Value)
      reads this
      ensures key in fields ==> r == fields[key]
      ensures key !in fields ==> r == None
    {
      Attr(fields, key)
    }

    /**
     * The loop shared by `__init__` and `update`: `setattr(self, key,
     * self._convert(value))` for every entry.
     */
    method Assign(entries: map<string, Value>)
      requires Valid()
      requires forall k :: k in entries ==> WellFormed(entries[k])
      modifies this
      ensures Valid()
      ensures fields == old(fields) + Convert(Dict(entries)).fields
    {
      var pending := entries.Keys;
      while pending != {}
        invariant pending <= entries.Keys
        invariant Valid()
        invariant fields == ConvertedEntries(old(fields), entries, entries.Keys - pending)
        decreases pending
      {
        var key :| key in pending;
        var converted := Convert(entries[key]);
        ConvertIdempotent(converted);
        ConvertedIsWellFormed(converted);
        var done := entries.Keys - pending;
        SetAttr(key, converted);
        AssignStep(old(fields), entries, done, key);
        pending := pending - {key};
        assert entries.Keys - pending == done + {key};
      }
      assert entries.Keys - pending == entries.Keys;
    }

    /**
     * `update`: validate first, then overwrite the given keys at the top
     * level only; a failed validation leaves the object untouched.
     */
    method Update(dictionary: Value) returns (outcome: Outcome)
      requires Valid() && WellFormed(dictionary)
      modifies this
      ensures Valid()
      ensures outcome.Pass? <==> dictionary.Dict?
      ensures outcome.Fail? ==> outcome.error == ValueError(TypeName(dictionary)) && fields == old(fields)
      ensures outcome.Pass? ==> fields == old(fields) + Convert(dictionary).fields
    {
      outcome := ValidateDict(dictionary);
      if outcome.Pass? {
        Assign(dictionary.entries);
      }
    }

    /** `to_dict`: a fresh plain dictionary built attribute by attribute; the object is not changed. */
    method ToDict() returns (result: map<string, Value>)
      ensures result == NodeToDict(Node(fields))
    {
      result := map[];
      var pending := fields.Keys;
      while pending != {}
        invariant pending <= fields.Keys
        invariant result == map k | k in fields.Keys - pending :: PlainValue(fields[k])
        decreases pending
      {
        var key :| key in pending;
        result := result[key := PlainValue(fields[key])];
        pending := pending - {key};
      }
    }
  }
}

=== FILE: validators.dfy ===
/**
 * The integer and e-mail validators of tools/validators.py.
 *
 * `validate_integer` parses its argument with `int()`, checks optional
 * inclusive bounds and then insists that `str()` of the parsed number is
 * `str()` of the argument; for a string this accepts exactly the canonical
 * decimal rendering of an in-range integer.  `validate_email` matches a fixed
 * regular expression, written here as a recogniser over the string together
 * with a declarative description of what the expression accepts.
 */
module Validators {

  /** The argument a caller passes: None, an int, or a str. */
  datatype Arg = NoneArg | IntArg(n: int) | StrArg(s: string)

  datatype Option<T> = None | Some(value: T)

  predicate IsDigit(c: char) { '0' <= c <= '9' }

  function DigitValue(c: char): (d: nat)
    requires IsDigit(c)
    ensures d < 10
  {
    c as int - '0' as int
  }

  function DigitChar(d: nat): (c: char)
    requires d < 10
    ensures IsDigit(c) && DigitValue(c) == d
  {
    ('0' as int + d) as char
  }

  // ---------------------------------------------------------------------
  // str(n) for an int
  // ---------------------------------------------------------------------

  /** The decimal digits of n, most significant first. */
  function Digits(n: nat): (r: string)
    ensures |r| > 0
    ensures forall i :: 0 <= i < |r| ==> IsDigit(r[i])
    ensures r[0] == '0' <==> n == 0
    ensures n == 0 ==> r == "0"
  {
    if n < 10 then [DigitChar(n)] else Digits(n / 10) + [DigitChar(n % 10)]
  }

  /** `str(n)`: canonical, and signed exactly for a negative n. */
  function IntToStr(n: int): (r: string)
    ensures IsCanonicalDecimal(r)
    ensures r[0] == '-' <==> n < 0
  {
    assert n < 0 ==> ("-" + Digits(-n))[1..] == Digits(-n);
    if n < 0 then "-" + Digits(-n) else Digits(n)
  }

  /**
   * The canonical decimal form of an integer, stated on its own: an optional
   * minus sign, then digits with no leading zero, and no "-0".
   */
  predicate IsCanonicalDecimal(s: string)
  {
    var body := if |s| > 0 && s[0] == '-' then s[1..] else s;
    && |body| > 0
    && (forall i :: 0 <= i < |body| ==> IsDigit(body[i]))
    && (body[0] == '0' ==> body == "0" && body == s)
  }

  // ---------------------------------------------------------------------
  // int(s) for a str
  // ---------------------------------------------------------------------

  /**
   * The ASCII characters `int()` skips before and after the number: space,
   * tab, line feed, vertical tab, form feed and carriage return.
   */
  predicate IsSpace(c: char)
  {
    c == ' ' || c == '\t' || c == '\n' || c == '\U{0B}' || c == '\U{0C}' || c == '\r'
  }

  function TrimStart(s: string): string
  {
    if |s| > 0 && IsSpace(s[0]) then TrimStart(s[1..]) else s
  }

  function TrimEnd(s: string): string
  {
    if |s| > 0 && IsSpace(s[|s| - 1]) then TrimEnd(s[..|s| - 1]) else s
  }

  /** Digits, with single underscores allowed between two digits. */
  predicate IsDigitRun(b: string)
  {
    && |b| > 0
    && IsDigit(b[0])
    && IsDigit(b[|b| - 1])
    && forall i :: 0 <= i < |b| ==>
         IsDigit(b[i]) || (b[i] == '_' && i + 1 < |b| && IsDigit(b[i + 1]))
  }

  /** The number a digit run denotes; underscores are skipped. */
  function RunValue(b: string): nat
  {
    if |b| == 0 then 0
    else if IsDigit(b[|b| - 1]) then RunValue(b[..|b| - 1]) * 10 + DigitValue(b[|b| - 1])
    else RunValue(b[..|b| - 1])
  }

  /**
   * `int(s)`: surrounding white space, then an optional sign, then a digit
   * run; None where Python raises ValueError.
   */
  function ParseInt(s: string): (r: Option<int>)
    ensures IsDigitRun(s) ==> r == Some(RunValue(s) as int)
    ensures |s| > 1 && s[0] == '-' && IsDigitRun(s[1..]) ==> r == Some(-(RunValue(s[1..]) as int))
  {
    assert |s| > 1 && IsDigitRun(s[1..]) ==> s[|s| - 1] == s[1..][|s| - 2];
    var t := TrimEnd(TrimStart(s));
    if |t| > 0 && (t[0] == '+' || t[0] == '-') then
      if IsDigitRun(t[1..]) then
        var magnitude: int := RunValue(t[1..]);
        Some(if t[0] == '-' then -magnitude else magnitude)
      else None
    else if IsDigitRun(t) then Some(RunValue(t))
    else None
  }

  lemma TrimNothing(s: string)
    requires |s| > 0 && !IsSpace(s[0]) && !IsSpace(s[|s| - 1])
    ensures TrimEnd(TrimStart(s)) == s
  {
  }

  lemma {:induction false} RunValueOfDigits(n: nat)
    ensures RunValue(Digits(n)) == n
  {
    if n >= 10 {
      var d := Digits(n);
      assert d[..|d| - 1] == Digits(n / 10);
      RunValueOfDigits(n / 10);
    }
  }

  lemma {:induction false} DigitsOfRunValue(b: string)
    requires |b| > 0 && forall i :: 0 <= i < |b| ==> IsDigit(b[i])
    requires b[0] == '0' ==> |b| == 1
    ensures Digits(RunValue(b)) == b
    decreases |b|
  {
    var last := b[|b| - 1];
    var front := b[..|b| - 1];
    if |b| == 1 {
      assert front == [];
      assert Digits(RunValue(b)) == [DigitChar(DigitValue(last))];
    } else {
      DigitsOfRunValue(front);
      var m := RunValue(front);
      assert front[0] == b[0];
      assert m != 0;
      var n := m * 10 + DigitValue(last);
      assert RunValue(b) == n;
      assert n / 10 == m && n % 10 == DigitValue(last);
      assert Digits(n) == Digits(m) + [DigitChar(DigitValue(last))];
      assert b == front + [last];
    }
  }

  /** `int(str(n)) == n`. */
  lemma ParseIntToStr(n: int)
    ensures ParseInt(IntToStr(n)) == Some(n)
  {
    var m := if n < 0 then -n else n;
    RunValueOfDigits(m);
    var s := IntToStr(n);
    TrimNothing(s);
    if n < 0 {
      assert s[1..] == Digits(m);
    }
  }

  /** A canonical decimal parses, and `str()` gives the string back. */
  lemma CanonicalParses(s: string)
    requires IsCanonicalDecimal(s)
    ensures ParseInt(s).Some? && IntToStr(ParseInt(s).value) == s
  {
    if s[0] == '-' {
      var body := s[1..];
      assert IsDigitRun(body);
      DigitsOfRunValue(body);
      var v := RunValue(body);
      assert v != 0;
      assert ParseInt(s) == Some(-(v as int));
      assert IntToStr(-(v as int)) == "-" + Digits(v);
      assert s == "-" + body;
    } else {
      assert IsDigitRun(s);
      DigitsOfRunValue(s);
      var v := RunValue(s);
      assert ParseInt(s) == Some(v as int);
      assert IntToStr(v) == Digits(v);
    }
  }

  // ---------------------------------------------------------------------
  // validate_integer
  // ---------------------------------------------------------------------

  /** The optional inclusive bounds; an absent bound does not constrain. */
  predicate InBounds(n: int, lower: Option<int>, upper: Option<int>)
  {
    (lower.None? || lower.value <= n) && (upper.None? || n <= upper.value)
  }

  /** `int(input_value)`; None where it raises ValueError. */
  function ToInt(input: Arg): (r: Option<int>)
    requires !input.NoneArg?
    ensures input.IntArg? ==> r == Some(input.n) && IntToStr(r.value) == ToStr(input)
    ensures input.StrArg? ==> r == ParseInt(input.s)
  {
    match input
    case IntArg(n) => Some(n)
    case StrArg(s) => ParseInt(s)
  }

  /** `str(input_value)`. */
  function ToStr(input: Arg): (r: string)
    requires !input.NoneArg?
    ensures input.IntArg? ==> IsCanonicalDecimal(r) && ParseInt(r) == Some(input.n)
    ensures input.StrArg? ==> r == input.s
  {
    match input
    case IntArg(n) => ParseIntToStr(n); IntToStr(n)
    case StrArg(s) => s
  }

  /** `validate_integer(input_value, lower_bound, upper_bound)`. */
  function ValidateInteger(input: Arg, lower: Option<int>, upper: Option<int>): (r: bool)
    ensures input.NoneArg? ==> r
    ensures input.IntArg? ==> (r <==> InBounds(input.n, lower, upper))
    ensures input.StrArg? && ParseInt(input.s).None? ==> !r
  {
    if input.NoneArg? then true
    else
      match ToInt(input)
      case None => false
      case Some(num) =>
        if lower.Some? && num < lower.value then false
        else if upper.Some? && num > upper.value then false
        else IntToStr(num) == ToStr(input)
  }

  /**
   * A string passes exactly when it is the canonical decimal form of an
   * integer within the bounds.
   */
  lemma ValidateIntegerString(s: string, lower: Option<int>, upper: Option<int>)
    ensures ValidateInteger(StrArg(s), lower, upper)
        <==> IsCanonicalDecimal(s) && ParseInt(s).Some? && InBounds(ParseInt(s).value, lower, upper)
  {
    if ValidateInteger(StrArg(s), lower, upper) {
      assert IsCanonicalDecimal(IntToStr(ParseInt(s).value));
    }
    if IsCanonicalDecimal(s) {
      CanonicalParses(s);
    }
  }

  /** Every in-range integer, written as `str()` writes it, passes. */
  lemma ValidateIntegerAcceptsStr(n: int, lower: Option<int>, upper: Option<int>)
    requires InBounds(n, lower, upper)
    ensures ValidateInteger(StrArg(IntToStr(n)), lower, upper)
  {
    ParseIntToStr(n);
  }

  /** `int()` accepts a plus sign before a digit run. */
  lemma ParsePlusRun(s: string)
    requires |s| > 1 && s[0] == '+' && IsDigitRun(s[1..])
    ensures ParseInt(s) == Some(RunValue(s[1..]) as int)
  {
    assert s[|s| - 1] == s[1..][|s| - 2];
    TrimNothing(s);
  }

  /** `int()` skips white space before the number. */
  lemma ParseSkipsLeadingSpace(c: char, t: string)
    requires IsSpace(c)
    ensures ParseInt([c] + t) == ParseInt(t)
  {
    assert ([c] + t)[1..] == t;
  }

  /** `int()` does not skip the ASCII separator characters: "\x1c7" is not a number. */
  lemma SeparatorNotSkipped()
    ensures ParseInt("\U{1C}7").None?
  {
    TrimNothing("\U{1C}7");
    assert !IsDigit("\U{1C}7"[0]);
  }

  /** `int()` reads "007", leading zeros and all. */
  lemma ReadsLeadingZeros()
    ensures ParseInt("007") == Some(7)
  {
    assert "007"[..2] == "00" && "00"[..1] == "0" && "0"[..0] == "";
    assert RunValue("007") == 7;
    assert IsDigitRun("007");
  }

  /** `int()` reads "+7" and "-0". */
  lemma ReadsSignedForms()
    ensures ParseInt("+7") == Some(7)
    ensures ParseInt("-0") == Some(0)
  {
    ParsePlusRun("+7");
    assert "+7"[1..] == "7" && "7"[..0] == "";
    assert RunValue("7") == 7;
    assert "-0"[1..] == "0";
    assert RunValue("0") == 0;
  }

  /** `int()` reads " 7" and "1_0", but not "1.0". */
  lemma ReadsSpacedOrDecorated()
    ensures ParseInt(" 7") == Some(7)
    ensures ParseInt("1_0") == Some(10)
    ensures ParseInt("1.0").None?
  {
    assert "7"[..0] == "" && RunValue("7") == 7;
    ParseSkipsLeadingSpace(' ', "7");
    assert [' '] + "7" == " 7";
    assert "1_0"[..2] == "1_" && "1_"[..1] == "1" && "1"[..0] == "";
    assert RunValue("1_0") == 10;
    assert IsDigitRun("1_0");
    TrimNothing("1.0");
    assert !IsDigit("1.0"[1]);
  }

  /** "007", "+7" and "-0" are read by `int()` but are not canonical, so they fail. */
  lemma NonCanonicalIntegersRejected()
    ensures !ValidateInteger(StrArg("007"), None, None)
    ensures !ValidateInteger(StrArg("+7"), None, None)
    ensures !ValidateInteger(StrArg("-0"), None, None)
  {
    ValidateIntegerString("007", None, None);
    ValidateIntegerString("+7", None, None);
    assert !IsDigit("+7"[0]);
    ValidateIntegerString("-0", None, None);
  }

  /** " 7" and "1_0" are read by `int()` but fail; "1.0" is not an integer at all. */
  lemma SpacedOrDecoratedIntegersRejected()
    ensures !ValidateInteger(StrArg(" 7"), None, None)
    ensures !ValidateInteger(StrArg("1_0"), None, None)
    ensures !ValidateInteger(StrArg("1.0"), None, None)
  {
    ValidateIntegerString(" 7", None, None);
    assert !IsDigit(" 7"[0]);
    ValidateIntegerString("1_0", None, None);
    assert !IsDigit("1_0"[1]);
    ValidateIntegerString("1.0", None, None);
    assert !IsDigit("1.0"[1]);
  }

  /** "7" passes. */
  lemma CanonicalIntegerAccepted()
    ensures ValidateInteger(StrArg("7"), None, None)
  {
    ValidateIntegerAcceptsStr(7, None, None);
    assert IntToStr(7) == "7";
  }

  /** "-12" passes the bounds -20 to 0, and "7" fails a lower bound of 8. */
  lemma BoundsApplyToStrings()
    ensures ValidateInteger(StrArg("-12"), Some(-20), Some(0))
    ensures !ValidateInteger(StrArg("7"), Some(8), None)
  {
    ValidateIntegerAcceptsStr(-12, Some(-20), Some(0));
    assert IntToStr(-12) == "-12";
  }

  // ---------------------------------------------------------------------
  // validate_email
  // ---------------------------------------------------------------------

  predicate IsAsciiLetter(c: char) { 'a' <= c <= 'z' || 'A' <= c <= 'Z' }

  /** `[a-zA-Z0-9._%+-]` */
  predicate IsLocalChar(c: char)
  {
    IsAsciiLetter(c) || IsDigit(c) || c == '.' || c == '_' || c == '%' || c == '+' || c == '-'
  }

  /** `[a-zA-Z0-9.-]` */
  predicate IsDomainChar(c: char)
  {
    IsAsciiLetter(c) || IsDigit(c) || c == '.' || c == '-'
  }

  predicate LocalChars(s: string) { forall i :: 0 <= i < |s| ==> IsLocalChar(s[i]) }

  predicate DomainChars(s: string) { forall i :: 0 <= i < |s| ==> IsDomainChar(s[i]) }

  predicate Letters(s: string) { forall i :: 0 <= i < |s| ==> IsAsciiLetter(s[i]) }

  /** The position of the first c in s at or after `from`, or |s| when there is none. */
  function IndexFrom(s: string, c: char, from: nat): (r: nat)
    requires from <= |s|
    ensures from <= r <= |s|
    ensures r < |s| ==> s[r] == c
    ensures forall i :: from <= i < r ==> s[i] != c
    decreases |s| - from
  {
    if from == |s| || s[from] == c then from else IndexFrom(s, c, from + 1)
  }

  /** The position of the first c in s, or |s| when there is none. */
  function IndexOf(s: string, c: char): nat
  {
    IndexFrom(s, c, 0)
  }

  /** The position of the last c in s before `end`, or -1 when there is none. */
  function LastIndexBefore(s: string, c: char, end: nat): (r: int)
    requires end <= |s|
    ensures -1 <= r < end
    ensures 0 <= r ==> s[r] == c
    ensures forall i :: r < i < end ==> s[i] != c
  {
    if end == 0 then -1
    else if s[end - 1] == c then end - 1
    else LastIndexBefore(s, c, end - 1)
  }

  /** The position of the last c in s, or -1 when there is none. */
  function LastIndexOf(s: string, c: char): int
  {
    LastIndexBefore(s, c, |s|)
  }

  /** Scans s from `from` on for two dots in a row. */
  predicate NoDoubleDotFrom(s: string, from: nat)
    decreases |s| - from
  {
    from + 1 >= |s| || (!(s[from] == '.' && s[from + 1] == '.') && NoDoubleDotFrom(s, from + 1))
  }

  predicate NoDoubleDot(s: string)
  {
    NoDoubleDotFrom(s, 0)
  }

  predicate EndsWithDot(s: string) { |s| > 0 && s[|s| - 1] == '.' }

  /**
   * The main part `[a-zA-Z0-9._%+-]+@[a-zA-Z0-9.-]+\.[a-zA-Z]{2,}`, by
   * scanning: a non-empty local part up to the first "@", then a domain
   * whose last dot has a non-empty head before it and two or more letters
   * after it.
   */
  predicate ScanAddress(s: string)
  {
    var at := IndexOf(s, '@');
    && 0 < at < |s|
    && LocalChars(s[..at])
    && var domain := s[at + 1..];
       && DomainChars(domain)
       && var dot := LastIndexOf(domain, '.');
          && 0 < dot
          && |domain| - dot > 2
          && Letters(domain[dot + 1..])
  }

  /**
   * The recogniser for
   * `^(?!.*\.\.)(?!.*\.$)[a-zA-Z0-9._%+-]+@[a-zA-Z0-9.-]+\.[a-zA-Z]{2,}$`
   * on a string with no final newline: the two look-aheads, then the main
   * part.
   */
  predicate MatchesBody(s: string)
  {
    NoDoubleDot(s) && !EndsWithDot(s) && ScanAddress(s)
  }

  /** `re.match` of the pattern: `$` also matches just before one final newline. */
  predicate MatchesEmailPattern(s: string)
    ensures MatchesEmailPattern(s) ==> |s| > 0 && (IsAsciiLetter(s[|s| - 1]) || s[|s| - 1] == '\n')
  {
    MatchesBody(s) || (|s| > 0 && s[|s| - 1] == '\n' && MatchesBody(s[..|s| - 1]))
  }

  /** `validate_email(email_address)`. */
  function ValidateEmail(arg: Arg): (r: bool)
    ensures !arg.StrArg? ==> !r
  {
    match arg
    case StrArg(s) => MatchesEmailPattern(s)
    case _ => false
  }

  // The pattern, described declaratively.

  predicate HasDoubleDot(s: string)
  {
    exists i :: 0 <= i < |s| - 1 && s[i] == '.' && s[i + 1] == '.'
  }

  /**
   * The "@" at `at` and the "." at `dot` split s into a local part, a
   * non-empty domain head and a top-level segment of two or more letters.
   */
  predicate SplitsAt(s: string, at: int, dot: int)
  {
    && 0 < at && at + 1 < dot && dot + 2 < |s|
    && s[at] == '@' && s[dot] == '.'
    && LocalChars(s[..at])
    && DomainChars(s[at + 1..dot])
    && Letters(s[dot + 1..])
  }

  /** `[a-zA-Z0-9._%+-]+@[a-zA-Z0-9.-]+\.[a-zA-Z]{2,}` spans all of s. */
  ghost predicate EmailShape(s: string)
  {
    exists at, dot :: SplitsAt(s, at, dot)
  }

  /** Both look-aheads and the main part, on a string with no final newline. */
  ghost predicate EmailRegexBody(s: string)
  {
    !HasDoubleDot(s) && !EndsWithDot(s) && EmailShape(s)
  }

  /** What `re.match` of the pattern accepts. */
  ghost predicate EmailRegex(s: string)
  {
    EmailRegexBody(s) || (|s| > 0 && s[|s| - 1] == '\n' && EmailRegexBody(s[..|s| - 1]))
  }

  lemma {:induction false} NoDoubleDotFromIff(s: string, from: nat)
    ensures NoDoubleDotFrom(s, from)
        <==> forall i :: from <= i < |s| - 1 ==> !(s[i] == '.' && s[i + 1] == '.')
    decreases |s| - from
  {
    if from + 1 < |s| {
      NoDoubleDotFromIff(s, from + 1);
    }
  }

  lemma NoDoubleDotIff(s: string)
    ensures NoDoubleDot(s) <==> !HasDoubleDot(s)
  {
    NoDoubleDotFromIff(s, 0);
  }

  lemma ScanSound(s: string)
    requires ScanAddress(s)
    ensures EmailShape(s)
  {
    var at := IndexOf(s, '@');
    var domain := s[at + 1..];
    var dot := LastIndexOf(domain, '.');
    var j := at + 1 + dot;
    assert s[at + 1..j] == domain[..dot];
    assert s[j + 1..] == domain[dot + 1..];
    assert SplitsAt(s, at, j);
  }

  lemma FirstAt(s: string, at: nat)
    requires at < |s| && s[at] == '@' && LocalChars(s[..at])
    ensures IndexOf(s, '@') == at
  {
    forall i | 0 <= i < at
      ensures s[i] != '@'
    {
      assert IsLocalChar(s[..at][i]);
    }
  }

  lemma LastDot(domain: string, k: nat)
    requires k < |domain| && domain[k] == '.' && Letters(domain[k + 1..])
    ensures LastIndexOf(domain, '.') == k
  {
    forall i | k < i < |domain|
      ensures domain[i] != '.'
    {
      assert IsAsciiLetter(domain[k + 1..][i - k - 1]);
    }
  }

  lemma DomainJoin(head: string, tld: string)
    requires DomainChars(head) && Letters(tld)
    ensures DomainChars(head + "." + tld)
  {
    var d := head + "." + tld;
    forall i | 0 <= i < |d|
      ensures IsDomainChar(d[i])
    {
      if i < |head| {
        assert d[i] == head[i];
      } else if i > |head| {
        assert d[i] == tld[i - |head| - 1];
      }
    }
  }

  lemma ScanComplete(s: string, at: int, dot: int)
    requires SplitsAt(s, at, dot)
    ensures ScanAddress(s)
  {
    FirstAt(s, at);
    var domain := s[at + 1..];
    var head, tld := s[at + 1..dot], s[dot + 1..];
    assert domain == head + "." + tld;
    DomainJoin(head, tld);
    var k := dot - at - 1;
    assert domain[k + 1..] == tld;
    LastDot(domain, k);
  }

  /** The recogniser accepts exactly what the declarative pattern describes. */
  lemma MatchesBodyIff(s: string)
    ensures MatchesBody(s) <==> EmailRegexBody(s)
  {
    NoDoubleDotIff(s);
    if MatchesBody(s) {
      ScanSound(s);
    }
    if EmailShape(s) {
      var at, dot :| SplitsAt(s, at, dot);
      ScanComplete(s, at, dot);
    }
  }

  /** `validate_email(s)` is true exactly when the regular expression matches s. */
  lemma ValidateEmailIff(s: string)
    ensures ValidateEmail(StrArg(s)) <==> EmailRegex(s)
  {
    MatchesBodyIff(s);
    if |s| > 0 {
      MatchesBodyIff(s[..|s| - 1]);
    }
  }

  /**
   * The look-ahead `(?!.*\.$)` never decides anything: the main part
   * already ends in a letter.
   */
  lemma FinalDotLookaheadRedundant(s: string)
    requires EmailShape(s)
    ensures |s| > 0 && IsAsciiLetter(s[|s| - 1])
  {
    var at, dot :| SplitsAt(s, at, dot);
    assert s[|s| - 1] == s[dot + 1..][|s| - dot - 2];
  }

  /** Two dots in a row anywhere make the address invalid. */
  lemma DoubleDotRejected(s: string, k: nat)
    requires k + 1 < |s| && s[k] == '.' && s[k + 1] == '.'
    ensures !ValidateEmail(StrArg(s))
  {
    NoDoubleDotIff(s);
    if |s| > 0 && s[|s| - 1] == '\n' {
      var body := s[..|s| - 1];
      NoDoubleDotIff(body);
      assert body[k] == '.' && body[k + 1] == '.';
    }
  }

  lemma BodyHasOneAt(body: string)
    requires MatchesBody(body)
    ensures IndexOf(body, '@') < |body|
    ensures forall i :: 0 <= i < |body| && body[i] == '@' ==> i == IndexOf(body, '@')
  {
    var at := IndexOf(body, '@');
    var domain := body[at + 1..];
    forall i | at < i < |body|
      ensures body[i] != '@'
    {
      assert body[i] == domain[i - at - 1];
    }
  }

  /** An accepted address holds exactly one "@". */
  lemma AcceptedHasOneAt(s: string)
    ensures ValidateEmail(StrArg(s)) ==>
      && '@' in s
      && forall i, j :: 0 <= i < |s| && 0 <= j < |s| && s[i] == '@' && s[j] == '@' ==> i == j
  {
    if MatchesBody(s) {
      BodyHasOneAt(s);
    } else if |s| > 0 && s[|s| - 1] == '\n' && MatchesBody(s[..|s| - 1]) {
      var body := s[..|s| - 1];
      BodyHasOneAt(body);
      assert forall i :: 0 <= i < |body| ==> s[i] == body[i];
    }
  }

  lemma JoinedNoDoubleDot(local: string, head: string, tld: string)
    requires NoDoubleDot(local)
    requires NoDoubleDot(head) && !EndsWithDot(head)
    requires Letters(tld)
    ensures !HasDoubleDot(local + "@" + head + "." + tld)
  {
    var s := local + "@" + head + "." + tld;
    var at, dot := |local|, |local| + 1 + |head|;
    NoDoubleDotIff(local);
    NoDoubleDotIff(head);
    forall i | 0 <= i < |s| - 1
      ensures !(s[i] == '.' && s[i + 1] == '.')
    {
      if i + 1 < at {
        assert s[i] == local[i] && s[i + 1] == local[i + 1];
      } else if i + 1 == at {
        assert s[i + 1] == '@';
      } else if i == at {
        assert s[i] == '@';
      } else if i + 1 < dot {
        assert s[i] == head[i - at - 1] && s[i + 1] == head[i - at];
      } else if i + 1 == dot {
        assert s[i] == head[|head| - 1];
      } else if i == dot {
        assert s[i + 1] == tld[0];
      } else {
        assert s[i] == tld[i - dot - 1];
      }
    }
  }

  /**
   * Any local part, domain head and letters-only top-level segment joined
   * by "@" and "." form an accepted address, provided neither part holds
   * ".." and the head does not end in a dot.
   */
  lemma AddressAccepted(local: string, head: string, tld: string)
    requires |local| > 0 && LocalChars(local) && NoDoubleDot(local)
    requires |head| > 0 && DomainChars(head) && NoDoubleDot(head) && !EndsWithDot(head)
    requires |tld| >= 2 && Letters(tld)
    ensures ValidateEmail(StrArg(local + "@" + head + "." + tld))
  {
    var s := local + "@" + head + "." + tld;
    var at, dot := |local|, |local| + 1 + |head|;
    assert s[..at] == local;
    assert s[at + 1..dot] == head;
    assert s[dot + 1..] == tld;
    assert SplitsAt(s, at, dot);
    ScanComplete(s, at, dot);
    assert s[|s| - 1] == tld[|tld| - 1];
    JoinedNoDoubleDot(local, head, tld);
    NoDoubleDotIff(s);
  }

  /** Documentation example: "example@example.com" is valid. */
  lemma ExampleAddressAccepted()
    ensures ValidateEmail(StrArg("example" + "@" + "example" + "." + "com"))
  {
    AddressAccepted("example", "example", "com");
  }

  /** Documentation example: "another.example@domain.co" is valid. */
  lemma DottedLocalPartAccepted()
    ensures ValidateEmail(StrArg("another.example" + "@" + "domain" + "." + "co"))
  {
    AddressAccepted("another.example", "domain", "co");
  }

  /** Documentation example: "invalid-email" is not valid. */
  lemma MissingAtRejected()
    ensures !ValidateEmail(StrArg("invalid-email"))
  {
    AcceptedHasOneAt("invalid-email");
  }

  /** Documentation example: "bad..email@domain.com" is not valid. */
  lemma ExampleDoubleDotRejected()
    ensures !ValidateEmail(StrArg("bad..email@domain.com"))
  {
    DoubleDotRejected("bad..email@domain.com", 3);
  }

  /** A dot just before "@" is accepted: only a dot at the very end is refused. */
  lemma DotBeforeAtAccepted()
    ensures ValidateEmail(StrArg("john." + "@" + "example" + "." + "com"))
  {
    AddressAccepted("john.", "example", "com");
  }

  /** One final newline is accepted, since `$` matches just before it. */
  lemma FinalNewlineAccepted()
    ensures ValidateEmail(StrArg("john" + "@" + "example" + "." + "com" + "\n"))
  {
    AddressAccepted("john", "example", "com");
    var s := "john" + "@" + "example" + "." + "com";
    assert (s + "\n")[..|s|] == s;
  }
}
